=== FILE: README.md ===
# data_downloader, modelled in Dafny

`data_downloader` fetches files named by URLs into a local output directory. The command
line entry point `main` creates the output directory. It builds one downloader per `--url`
group and runs the downloads on a thread pool. As each task completes it checks the result.
For a failed task it logs an error line and calls `delete()` on that task's downloader, which
removes a partial file. The downloaders come from `data_downloader/downloader.py`:

- `FileDownloader` stores the URL and target directory. Its `download` raises
  `NotImplementedError`.
- `HttpFileDownloader` names the local file after the URL's last `/` segment. It checks the
  response status before opening that file. Then it writes and flushes every non-empty chunk of
  the streamed body.
- `FtpFileDownloader` does not override `download`, so in this source an FTP download always
  fails.

The project has three modules:

- `Paths` (`paths.dfy`): Python's `str.split`, `split('/')[-1]` and pathlib's `/` join.
- `Downloader` (`downloader.dfy`): the filesystem as a value (`Disk`) and the server's
  behaviour as a value (`Fetch`). It has the open output file as a class (`OutputFile`), whose
  `Write`, `Flush` and `Close` update its buffer, its on-disk content and its record of calls.
  It also has the downloader class `FileDownloader`, whose three named constructors stand for
  the three Python classes. Its `Download` method runs the chunk loop on a fresh `OutputFile`.
- `App` (`app.dfy`): `main` as the method `RunMain`, which makes the output directory and
  calls `Submit` and `Reconcile` for its two loops. The reconciliation loop is specified by the
  function `Settle`. The module also has `get_log_level`.

Inputs from outside the program are parameters:

- `Fetch` is what `requests.get` and `iter_content` deliver.
- `Completion` is what `as_completed` and `future.result()` deliver, in completion order.
- `choose` is the downloader class the factory picks for a URL, or None when the factory
  raises.
- `describe` (in `RunTask`) is the text of an exception `download` raises.

`main` is modelled sequentially. Each task's file is on disk by the time its completion is
reconciled, and completions are reconciled in the order given.

In the code as shown:

- FTP downloads fail. The FTP class inherits the base `download`.
- The output path is computed inside `download`, not at construction.
- The status is checked before the file is opened.
- The chunk size is fixed at 8192 in the code.
- A failing factory call in `main` is outside the `try`. It propagates out of `main` once
  the tasks already submitted have run, and none of their results is examined.

## Model

| member | source | states |
|---|---|---|
| `Paths.Split` | data_downloader/downloader.py:29 | `url.split('/')` always yields at least one piece, and no piece holds the separator |
| `Paths.FileName` | data_downloader/downloader.py:29 | the local file name is the last piece of `url.split('/')`; `FileNameIsLastSegment` states what that is |
| `Paths.JoinPath` | data_downloader/downloader.py:29 | `Path(dir) / name` for a name without `/`: an empty or `.` name adds nothing, an empty directory stands for the current one, and a `/` is inserted unless the directory already ends with one |
| `Paths.SplitJoin` | data_downloader/downloader.py:29 | joining the pieces of a split with the same separator gives back the original string |
| `Paths.FileNameIsLastSegment` | data_downloader/downloader.py:29 | `url.split('/')[-1]` is a suffix of the URL with no `/`, preceded by a `/` unless it is the whole URL: exactly the text after the last `/` |
| `Paths.NoSlashIsOwnName` | data_downloader/downloader.py:29 | a URL with no `/` is its own file name |
| `Paths.ParentThenName` | data_downloader/downloader.py:29-33 | a path is its parent directory, a `/` and its last segment; a path without `/` lies in the current directory |
| `Paths.JoinPathKeepsName` | data_downloader/downloader.py:29 | `Path(dir) / name` begins with `dir`, and its last `/` segment is `name` again |
| `Downloader.BadStatus` | data_downloader/downloader.py:32 | `raise_for_status` raises exactly for the 4xx and 5xx status codes |
| `Downloader.CanOpen` | data_downloader/downloader.py:33 | `open(target, 'wb')` succeeds when the directory the target lies in exists and the target is not itself a directory, paths being compared as strings |
| `Downloader.NonEmpty` | data_downloader/downloader.py:34-35 | filtering the chunks keeps every non-empty chunk as often as it occurs, drops the empty ones and adds nothing |
| `Downloader.ConcatNonEmpty` | data_downloader/downloader.py:34-37 | skipping the zero-length chunks loses no byte: the non-empty chunks concatenate to the whole body |
| `Downloader.WriteTraceShape` | data_downloader/downloader.py:34-37 | the calls on the file are one write per non-empty chunk, the k-th write carrying the k-th non-empty chunk, each immediately followed by a flush, so the number of writes equals the number of non-empty chunks; the loop only writes and flushes, so the file stays open across the whole body |
| `Downloader.OutputFile.Open` | data_downloader/downloader.py:33 | `open(path, 'wb')` starts an empty file with nothing buffered |
| `Downloader.OutputFile.Write` | data_downloader/downloader.py:36 | `write` hands the data to the file object; the model holds it in the buffer, leaving the on-disk content as it was until `flush` |
| `Downloader.OutputFile.Flush` | data_downloader/downloader.py:37 | `flush` moves everything buffered to the on-disk content |
| `Downloader.OutputFile.Close` | data_downloader/downloader.py:33-37 | leaving the `with` block flushes what is left and closes the file |
| `Downloader.FileDownloader.Base` | data_downloader/downloader.py:12-14 | the constructor stores `url` and `path` unchanged |
| `Downloader.FileDownloader.Http` | data_downloader/downloader.py:25-26 | the HTTP constructor stores `url` and `path` unchanged through the base constructor |
| `Downloader.FileDownloader.Ftp` | data_downloader/downloader.py:40-43 | the FTP constructor stores `url` and `path` unchanged through the base constructor |
| `Downloader.FileDownloader.OutputPath` | data_downloader/downloader.py:29 | `Path(path) / url.split('/')[-1]` begins with `path`, and is `path` itself when the last segment is empty or `.` |
| `Downloader.FileDownloader.Save` | data_downloader/downloader.py:16-17 | `save` does nothing: it returns nothing and changes no state |
| `Downloader.FileDownloader.Download` | data_downloader/downloader.py:19-43 | base and FTP downloads raise `NotImplementedError` and touch nothing. For HTTP: a request error or a 4xx/5xx status raises before the file is opened, and the disk and file calls are unchanged. Otherwise, when `open` can create or truncate the output file `Path(path)/url.split('/')[-1]` in its directory, that file ends up holding the whole received body, through open, one write and flush per non-empty chunk in order, and close. A body that breaks off raises and leaves the partial file. When `open` fails, the download raises and the disk is unchanged |
| `Downloader.FileDownloader.Delete` | tests/unit/test_downloader.py:8-17 | `delete()` removes the output file and changes nothing else |
| `Downloader.DeleteIdempotent` | tests/unit/test_downloader.py:8-17 | deleting twice equals deleting once, and deleting an absent file is a no-op |
| `Downloader.OutputPathNamesUrlFile` | tests/integration/test_integration.py:29-32 | the output file lies under the downloader's directory and is named `url.split('/')[-1]` |
| `Downloader.TrailingSlashCannotOpen` | data_downloader/downloader.py:29-33 | a URL ending in `/` gives the directory path itself as output path; when `path` is an existing directory, the download cannot open it |
| `Downloader.NamelessUrlOpensPath` | data_downloader/downloader.py:29-33 | when the URL's last segment is empty or `.`, `open` acts on `path` itself and succeeds exactly when `path` is not a directory and its parent is |
| `Downloader.TrailingSlashOpensPlainName` | data_downloader/downloader.py:29-33 | a URL ending in `/` with a `path` that has no `/` and is not a directory: the download opens `path` as a file in the current directory |
| `App.MakeDirs` | data_downloader/main.py:12 | on the modelled filesystem, `os.makedirs(output, exist_ok=True)` fails only for the empty path or an existing regular file; it tolerates an existing directory and otherwise makes `output` a directory, keeping the files |
| `App.RunMain` | data_downloader/main.py:11-29 | if makedirs fails, nothing is submitted. Otherwise there is one downloader per `--url` group, built from the group's first URL and the output directory, up to the first group the factory raises for, and the futures map sends each task to it. If the factory raises, `main` raises after the submitted tasks have run: their files stay and nothing is logged or deleted. Otherwise every group is submitted. Every failed task, and no other, gets exactly one error line and one `delete()` on its own downloader. With distinct output paths, failed outputs are gone and successful ones hold what was downloaded |
| `App.Accepted` | data_downloader/main.py:16-18 | the submission loop gets through exactly the groups before the first one the factory raises for, and through all groups when it raises for none |
| `App.Submit` | data_downloader/main.py:16-20 | the submission loop builds exactly one downloader per `--url` group, from the group's first URL and the output directory, keyed by the group's index, of the class the factory chose, and stops at the group the factory raises for, reporting that group |
| `App.RunTask` | data_downloader/main.py:19 | a submitted task runs `download()`: base and FTP downloaders always complete with an exception and leave no file; an HTTP task completes without exception exactly when the status is fine, the file opens and the body arrives whole, and the file it leaves holds the body received |
| `App.LeaveAllKeepsFiles` | data_downloader/main.py:14-20 | when the factory raises, the tasks already submitted still run: with distinct output paths each leaves its file, a failed task's partial file included, and nothing else changes |
| `App.FailureMessage` | data_downloader/main.py:28 | the error line is `failed to download file from {url}, {e}.` |
| `App.Settle` | data_downloader/main.py:22-29 | the specification of the reconciliation loop: the completions in order, each one's file left on disk, a failed one logged and deleted |
| `App.Reconcile` | data_downloader/main.py:22-29 | the reconciliation loop over the completions, in completion order, computes the state specified by `Settle`: each raised result is logged and its task's downloader deletes its output |
| `App.SettleKeepsDirs` | data_downloader/main.py:22-29 | reconciliation does not add or remove directories, so the output directory still exists afterwards |
| `App.EveryTaskCompletesOnce` | data_downloader/main.py:22-24 | since `as_completed` yields each future once, every submitted task's result is examined, and examined only once |
| `App.SettleDeletedIffFailed` | data_downloader/main.py:22-29 | a task's downloader gets `delete()` exactly when that task's result raised, and never twice; successes are left alone |
| `App.SettleLogMatches` | data_downloader/main.py:25-29 | the error lines and the deletions correspond one to one, in completion order: the m-th line is `failed to download file from {url}, {e}.` for the m-th deleted task's own URL and exception |
| `App.SettleFiles` | data_downloader/main.py:22-29 | with no two tasks sharing an output path: a failed task's output is absent, even if it was never written; a successful task's output holds what its download wrote; every other path is unchanged |
| `App.SettleOrderIrrelevant` | tests/integration/test_integration.py:60-66 | with distinct output paths, any two completion orders give the same disk and delete the same tasks |
| `App.DistinctNamesDistinctOutputs` | data_downloader/main.py:16-20 | groups whose first URLs end in different proper file names give tasks with different output paths |
| `App.SharedNameLosesSuccess` | data_downloader/main.py:25-29 | two groups with the same file name: if the success completes before the failure, the failure's `delete()` removes the successful file |
| `App.NetworkErrorScenario` | tests/unit/test_main.py:52-71 | one group whose download raises "Network error!" gives exactly one error line, `failed to download file from <url>, Network error!.`, and one deletion, and leaves no output file |
| `App.Upper` | data_downloader/main.py:44-50 | `str.upper` keeps the length and upper-cases each character |
| `App.GetLogLevel` | data_downloader/main.py:32-53 | the upper-cased name selects WARNING, DEBUG or ERROR exactly when it equals that name; every other name, INFO included, gives INFO |
| `App.LogLevelIgnoresCase` | data_downloader/main.py:44-53 | names that agree when upper-cased get the same level, and a name and its upper-cased form get the same level |
| `App.LogLevelExamples` | tests/unit/test_main.py:25-31 | `info`, `WarNing`, `DEBUG`, `error` and `xxx` map to INFO, WARNING, DEBUG, ERROR and INFO |

## Left out

- The HTTP transfer itself (`requests.get`, the connection, `iter_content(chunk_size=8192)`): the response and the chunking are the input `Fetch`, so the fixed chunk size of 8192 does not appear.
- The info log line `download` writes before requesting (data_downloader/downloader.py:30); only `main`'s error lines are modelled.
- Real filesystem calls: `open`, `os.makedirs` and the removal in `delete()` act on the value `Disk`. A directory counts as existing only if it is in `Disk.dirs` or is the current directory. `MakeDirs` does not create intermediate directories, and it fails on an existing file only when that file is the target itself.
- Download: a `write`, `flush` or `close` that raises `OSError` after `open` succeeded (a full disk, an I/O error), and permission errors from `open`, are not modelled: `OutputFile` and `Disk` cannot fail, so the contract promises `Done` and the whole body whenever the status is fine, `open` is possible and the body arrives whole. `RunMain` accepts any completion, so `main`'s handling of such a failure (one error line and one `delete()`) is covered all the same.
- Download: paths are compared as strings, so a `..` file name (kept by pathlib, as in `out/..`) names a new file rather than the directory it resolves to: for the URL `http://h/a/..` and the directory `out`, the model writes the file `out/..` where `open` raises `IsADirectoryError`.
- OutputFile.Write: the model never writes a chunk through to the file before `flush`, while CPython's `BufferedWriter` writes a chunk larger than its free buffer space straight to the file. No stated property depends on this, because `Flush` follows every `Write` in the chunk loop.
- RunTask: for the same reason, its "completes without exception exactly when" leaves out `OSError` from `write`, `flush`, `close` and permission errors from `open`; such a task would complete with an error and possibly a partial file, which `RunMain`'s completions can express.
- MakeDirs: `PermissionError` and other `OSError`s of `os.makedirs` are not modelled, since `Disk` holds no permissions; "fails only for the empty path or an existing regular file" holds only on that abstraction.
- `RunTask`: the text of each exception (`NotImplementedError`, the errors of `requests` and of `open`) is the parameter `describe`, since it comes from outside the source.
- `Parent`: the parent of a path directly under the root `/` is taken to be the current directory, not `/`.
- `JoinPath`: pathlib's collapsing of repeated or trailing `/` and of `.` segments inside the directory string is not modelled.
- `Upper`: only the single-character upper-case mappings that yield ASCII letters are modelled (a-z, U+0131, U+017F). Every other character is kept as it is. None of the other mappings of Python's `str.upper` can produce the names INFO, WARNING, DEBUG or ERROR, so `GetLogLevel` is unaffected.
- The `ThreadPoolExecutor` and `as_completed` scheduling: `RunMain` reconciles completions one after another, in the order given. Each task's download effect is applied just before it is reconciled. When two tasks share an output path, their concurrent writes to that one file are not modelled.
- RunMain: the error line and the deletion of one failure are kept in two sequences aligned by position, so the order between a failure's log line and its `delete()` is not recorded.
- RunMain: each `--url` group must hold at least one URL. argparse's `nargs='+'` guarantees this, so the `IndexError` an empty group would raise is not modelled.
- The downloader factory `get_downloader` and its scheme check: `RunMain` takes the factory's choice as the parameter `choose`. The factory's `chunk_size`, `timeout` and FTP credentials are not modelled; that it raises for a URL is the value None of `choose`. `get_downloader` is not part of this model.
- The `delete()` body, the `output_file`, `host` and `file` attributes, `path` as the remote directory the tests expect (the source's `path` is the local directory, which `FileDownloader.path` models), FTP login, `cwd` and `retrbinary`: the tests use them, but the downloader source does not define them. `delete()` is modelled abstractly, as removing the output path.
- `save`: it does nothing. It is modelled as a method with an empty body and no contract.
- `parse()`, the logging configuration and the `__main__` block (data_downloader/main.py:56-78), the test helpers in tests/configs.py, and the scratch code in tests/test_interview.py.

=== FILE: app.dfy ===
/** The entry point of data_downloader/main.py: `main` creates the output directory, builds
    and submits one downloader per `--url` group, and then reconciles the tasks as they
    complete, logging every failure and deleting the failed task's output file; and
    `get_log_level`, which maps a level name to a `logging` level. */
module App {
  import opened Paths
  import opened Downloader

  /** The parsed arguments `main` reads: the `--url` groups (argparse's `action='append',
      nargs='+'`, so every group holds at least one URL) and `--output`. */
  datatype Args = Args(url: seq<seq<string>>, output: string)

  /** One future as `as_completed` yields it: the index of the task (its position in the
      `--url` groups), what its download left at the task's output path (None when it never
      opened the file), and the text of the exception `future.result()` raises, if any. */
  datatype Completion = Completion(task: nat, left: Option<seq<byte>>, error: Option<string>)

  /** The state the reconciliation loop builds: the disk, the error log lines in order, and
      the tasks whose downloader got `delete()`, in order. */
  datatype Settled = Settled(disk: Disk, log: seq<string>, deleted: seq<nat>)

  /** What `main` ends with: `os.makedirs` raised; or the downloader factory raised for the
      URL of group `group`, after the tasks of the groups before it were submitted, and the
      exception left `main` once those tasks had run, leaving `disk`; or every task was
      submitted (the futures map sends each task to its downloader) and reconciled. */
  datatype MainResult =
    | MakeDirsFailed(output: string)
    | FactoryRaised(group: nat, futures: map<nat, FileDownloader>, disk: Disk)
    | Finished(futures: map<nat, FileDownloader>, settled: Settled)

  /** `os.makedirs(p, exist_ok=True)`: raises for the empty path and for a path that is an
      existing regular file; an existing directory is tolerated. Intermediate directories are
      not tracked. */
  function MakeDirs(disk: Disk, p: string): (r: Option<Disk>)
    ensures r.None? <==> p == "" || p in disk.files
    ensures r.Some? ==> IsDirectory(r.value, p) && r.value.files == disk.files
    ensures r.Some? ==> forall q :: IsDirectory(disk, q) ==> IsDirectory(r.value, q)
    ensures r.Some? && p in disk.dirs ==> r.value == disk
  {
    if p == "" || p in disk.files then None else Some(disk.(dirs := disk.dirs + {p}))
  }

  /** The number of `--url` groups the submission loop gets through: the groups before the
      first one whose URL the downloader factory raises for (all of them when it raises for
      none). `choose` gives the class the factory builds for a URL, or None when it raises. */
  function Accepted(urls: seq<seq<string>>, choose: string -> Option<Kind>): (n: nat)
    requires forall i :: 0 <= i < |urls| ==> |urls[i]| > 0
    ensures n <= |urls|
    ensures forall i :: 0 <= i < n ==> choose(urls[i][0]).Some?
    ensures n < |urls| ==> choose(urls[n][0]).None?
    decreases |urls|
  {
    if urls == [] || choose(urls[0][0]).None? then 0 else 1 + Accepted(urls[1..], choose)
  }

  /** One task as the thread pool runs it: `file_downloader.download()` is called, and the
      future keeps what it raised until `main` examines it. The completion records the file
      the download left at its output path, if it opened one, and the text of the exception,
      which `describe` gives (it comes from `requests` and the operating system). */
  method RunTask(task: nat, d: FileDownloader, fetch: Fetch, disk: Disk, describe: DownloadError -> string)
    returns (c: Completion, after: Disk)
    ensures c.task == task
    ensures after == Leave(disk, d.OutputPath(), c.left)
    // base and FTP downloaders always raise, and never open their file
    ensures d.kind != Kind.Http ==> c == Completion(task, None, Some(describe(NotImplemented)))
    ensures c.error.None? <==>
      && d.kind == Kind.Http && fetch.Response? && !BadStatus(fetch.status)
      && CanOpen(disk, d.OutputDir(), d.OutputPath()) && fetch.interrupted.None?
    ensures c.left.Some? <==>
      d.kind == Kind.Http && fetch.Response? && !BadStatus(fetch.status) && CanOpen(disk, d.OutputDir(), d.OutputPath())
    ensures c.left.Some? ==> c.left.value == Concat(fetch.chunks)
  {
    var r, a, events := d.Download(fetch, disk);
    var left := if events == [] then None else Some(a.files[d.OutputPath()]);
    var error := if r.Raised? then Some(describe(r.error)) else None;
    c, after := Completion(task, left, error), a;
  }

  /** The error line `main` logs for a failed task. */
  function FailureMessage(url: string, error: string): string
  {
    "failed to download file from " + url + ", " + error + "."
  }

  /** `as_completed` yields every one of the n submitted futures exactly once, in some order. */
  predicate IsCompletionOrder(cs: seq<Completion>, n: nat)
  {
    && |cs| == n
    && (forall k :: 0 <= k < |cs| ==> cs[k].task < n)
    && (forall j, k :: 0 <= j < k < |cs| ==> cs[j].task != cs[k].task)
  }

  /** Every completion belongs to a submitted task. */
  predicate Submitted(futures: map<nat, FileDownloader>, cs: seq<Completion>)
  {
    forall k :: 0 <= k < |cs| ==> cs[k].task in futures
  }

  /** Task i completed with an error. */
  ghost predicate Failed(cs: seq<Completion>, i: nat)
  {
    exists k :: 0 <= k < |cs| && cs[k].task == i && cs[k].error.Some?
  }

  /** No two completions write to the same output path. */
  predicate DistinctOutputs(futures: map<nat, FileDownloader>, cs: seq<Completion>)
    requires Submitted(futures, cs)
  {
    forall j, k :: 0 <= j < |cs| && 0 <= k < |cs| && j != k ==>
      futures[cs[j].task].OutputPath() != futures[cs[k].task].OutputPath()
  }

  /** A task's download leaves its file behind (if it opened one) by the time it completes. */
  function Leave(disk: Disk, p: string, left: Option<seq<byte>>): Disk
  {
    if left.Some? then disk.(files := disk.files[p := left.value]) else disk
  }

  /** One iteration of the reconciliation loop: the completed task's file is on disk; if its
      result raised, the failure is logged and the task's downloader deletes its file. */
  function Step(futures: map<nat, FileDownloader>, s: Settled, c: Completion): Settled
    requires c.task in futures
  {
    var d := futures[c.task];
    var disk := Leave(s.disk, d.OutputPath(), c.left);
    if c.error.Some? then
      Settled(d.Delete(disk), s.log + [FailureMessage(d.url, c.error.value)], s.deleted + [c.task])
    else
      s.(disk := disk)
  }

  /** The reconciliation loop over the completions, in the order they come. */
  function Settle(futures: map<nat, FileDownloader>, disk: Disk, cs: seq<Completion>): Settled
    requires Submitted(futures, cs)
    decreases |cs|
  {
    if cs == [] then Settled(disk, [], [])
    else Step(futures, Settle(futures, disk, cs[..|cs| - 1]), cs[|cs| - 1])
  }

  /** `main(args)`. The scheduling of the thread pool is not modelled: the completions of the
      submitted tasks arrive in `completions`, in the order `as_completed` yields them, and
      each task's file is on disk by the time its completion is reconciled. `choose` stands
      for the class the downloader factory picks for a URL, None when it raises. */
  method RunMain(args: Args, choose: string -> Option<Kind>, disk: Disk, completions: seq<Completion>)
    returns (r: MainResult)
    requires forall i :: 0 <= i < |args.url| ==> |args.url[i]| > 0
    requires IsCompletionOrder(completions, Accepted(args.url, choose))
    ensures r.MakeDirsFailed? <==> MakeDirs(disk, args.output).None?
    ensures r.FactoryRaised? <==> MakeDirs(disk, args.output).Some? && Accepted(args.url, choose) < |args.url|
    // one downloader per group, built from the group's first URL and the output directory,
    // until the factory raises
    ensures !r.MakeDirsFailed? ==> forall i: nat :: i in r.futures <==> i < Accepted(args.url, choose)
    ensures !r.MakeDirsFailed? ==> forall i :: 0 <= i < Accepted(args.url, choose) ==>
      && i in r.futures
      && r.futures[i].url == args.url[i][0]
      && r.futures[i].path == args.output
      && r.futures[i].kind == choose(args.url[i][0]).value
    ensures !r.MakeDirsFailed? ==> Submitted(r.futures, completions)
    // the factory's exception leaves `main` after the submitted tasks have run: no result is
    // examined, so nothing is logged and no file is deleted
    ensures r.FactoryRaised? ==>
      && r.group == Accepted(args.url, choose)
      && choose(args.url[r.group][0]).None?
      && r.disk == LeaveAll(r.futures, MakeDirs(disk, args.output).value, completions)
    ensures r.Finished? ==>
      && r.settled == Settle(r.futures, MakeDirs(disk, args.output).value, completions)
      && IsDirectory(r.settled.disk, args.output)
    // every failed task, and no other, is logged once and deleted once
    ensures r.Finished? ==>
      && |r.settled.log| == |r.settled.deleted|
      && (forall i: nat :: i in r.settled.deleted <==> Failed(completions, i))
      && (forall j, k :: 0 <= j < k < |r.settled.deleted| ==> r.settled.deleted[j] != r.settled.deleted[k])
      && (forall m :: 0 <= m < |r.settled.log| ==>
            LogLineFor(r.futures, completions, r.settled.deleted[m], r.settled.log[m]))
    // failed outputs are gone and successful outputs hold what was downloaded
    ensures r.Finished? && DistinctOutputs(r.futures, completions) ==>
      forall k :: 0 <= k < |completions| ==>
        var p := r.futures[completions[k].task].OutputPath();
        FileAt(r.settled.disk, p) == Expected(FileAt(disk, p), completions[k])
  {
    var made := MakeDirs(disk, args.output);
    if made.None? {
      return MakeDirsFailed(args.output);
    }
    var futures, raised := Submit(args, choose);
    if raised.Some? {
      return FactoryRaised(raised.value, futures, LeaveAll(futures, made.value, completions));
    }
    var s := Reconcile(futures, made.value, completions);
    SettleKeepsDirs(futures, made.value, completions);
    SettleDeletesFailed(futures, made.value, completions);
    if DistinctOutputs(futures, completions) {
      SettleFiles(futures, made.value, completions);
    }
    r := Finished(futures, s);
  }

  /** The submission loop of `main`: one downloader per `--url` group, built from the
      group's first URL and the output directory, stored under the task's index, until the
      factory raises; `raised` is the group it raised for. */
  method Submit(args: Args, choose: string -> Option<Kind>)
    returns (futures: map<nat, FileDownloader>, raised: Option<nat>)
    requires forall i :: 0 <= i < |args.url| ==> |args.url[i]| > 0
    ensures raised.None? <==> Accepted(args.url, choose) == |args.url|
    ensures raised.Some? ==> raised.value == Accepted(args.url, choose)
    ensures forall i: nat :: i in futures <==> i < Accepted(args.url, choose)
    ensures forall i :: 0 <= i < Accepted(args.url, choose) ==>
      && i in futures
      && futures[i].url == args.url[i][0]
      && futures[i].path == args.output
      && futures[i].kind == choose(args.url[i][0]).value
  {
    futures := map[];
    var i := 0;
    while i < |args.url|
      invariant 0 <= i <= |args.url| && i <= Accepted(args.url, choose)
      invariant forall j: nat :: j in futures <==> j < i
      invariant forall j :: 0 <= j < i ==>
        && futures[j].url == args.url[j][0]
        && futures[j].path == args.output
        && futures[j].kind == choose(args.url[j][0]).value
    {
      var url := args.url[i][0];
      var kind := choose(url);
      if kind.None? {
        return futures, Some(i);
      }
      var d: FileDownloader;
      if kind.value == Kind.Http {
        d := new FileDownloader.Http(url, args.output);
      } else if kind.value == Kind.Ftp {
        d := new FileDownloader.Ftp(url, args.output);
      } else {
        d := new FileDownloader.Base(url, args.output);
      }
      futures := futures[i := d];
      i := i + 1;
    }
    raised := None;
  }

  /** The reconciliation loop of `main`: for each completed future, in completion order, a
      raised result is logged and the task's downloader deletes its output. */
  method Reconcile(futures: map<nat, FileDownloader>, disk: Disk, completions: seq<Completion>)
    returns (s: Settled)
    requires Submitted(futures, completions)
    ensures s == Settle(futures, disk, completions)
  {
    s := Settled(disk, [], []);
    var k := 0;
    while k < |completions|
      invariant 0 <= k <= |completions|
      invariant s == Settle(futures, disk, completions[..k])
    {
      var c := completions[k];
      assert completions[..k + 1][..k] == completions[..k];
      var d := futures[c.task];
      s := s.(disk := Leave(s.disk, d.OutputPath(), c.left));
      if c.error.Some? {
        s := Settled(d.Delete(s.disk), s.log + [FailureMessage(d.url, c.error.value)], s.deleted + [c.task]);
      }
      k := k + 1;
    }
    assert completions[..k] == completions;
  }

  /** Reconciliation never removes or adds a directory. */
  lemma {:induction false} SettleKeepsDirs(futures: map<nat, FileDownloader>, disk: Disk, cs: seq<Completion>)
    requires Submitted(futures, cs)
    ensures Settle(futures, disk, cs).disk.dirs == disk.dirs
    decreases |cs|
  {
    if cs != [] {
      SettleKeepsDirs(futures, disk, cs[..|cs| - 1]);
    }
  }

  /** The task indices {0, ..., n-1}. */
  function Range(n: nat): (r: set<nat>)
    ensures forall i: nat :: i in r <==> i < n
    ensures |r| == n
  {
    if n == 0 then {} else Range(n - 1) + {n - 1}
  }

  lemma {:induction false} SubsetSize<T>(a: set<T>, b: set<T>)
    requires a <= b
    ensures |a| <= |b|
    decreases |b|
  {
    if a != {} {
      var x :| x in a;
      SubsetSize(a - {x}, b - {x});
    }
  }

  /** The tasks of the first m completions, when they are pairwise distinct, are m tasks. */
  lemma {:induction false} CompletedTasksSize(cs: seq<Completion>, m: nat)
    requires m <= |cs|
    requires forall j, k :: 0 <= j < k < |cs| ==> cs[j].task != cs[k].task
    ensures |set k | 0 <= k < m :: cs[k].task| == m
  {
    if m > 0 {
      CompletedTasksSize(cs, m - 1);
      var prev := set k | 0 <= k < m - 1 :: cs[k].task;
      assert (set k | 0 <= k < m :: cs[k].task) == prev + {cs[m - 1].task};
      assert cs[m - 1].task !in prev;
    }
  }

  /** Task i is among the completions. */
  ghost predicate Completed(cs: seq<Completion>, i: nat)
  {
    exists k :: 0 <= k < |cs| && cs[k].task == i
  }

  /** Since `as_completed` yields each of the n futures once, every submitted task's result
      is examined: each task index appears among the completions, exactly once. */
  lemma EveryTaskCompletesOnce(cs: seq<Completion>, n: nat)
    requires IsCompletionOrder(cs, n)
    ensures forall i: nat :: i < n ==> Completed(cs, i)
    ensures forall j, k :: 0 <= j < |cs| && 0 <= k < |cs| && cs[j].task == cs[k].task ==> j == k
  {
    var done := set k | 0 <= k < n :: cs[k].task;
    CompletedTasksSize(cs, n);
    assert done <= Range(n);
    forall i: nat | i < n ensures Completed(cs, i) {
      if i !in done {
        SubsetSize(done, Range(n) - {i});
        assert false;
      }
    }
  }

  /** `line` is the error line logged for the failed completion of `task`. */
  ghost predicate LogLineFor(futures: map<nat, FileDownloader>, cs: seq<Completion>, task: nat, line: string)
  {
    exists k :: 0 <= k < |cs| && cs[k].task == task && cs[k].task in futures && cs[k].error.Some?
      && line == FailureMessage(futures[cs[k].task].url, cs[k].error.value)
  }

  /** The error lines and the deletions correspond one to one, in completion order: the m-th
      line is the failure message of the m-th deleted task, naming that task's own URL. */
  lemma {:induction false} SettleLogMatches(futures: map<nat, FileDownloader>, disk: Disk, cs: seq<Completion>)
    requires Submitted(futures, cs)
    ensures |Settle(futures, disk, cs).log| == |Settle(futures, disk, cs).deleted|
    ensures forall m :: 0 <= m < |Settle(futures, disk, cs).log| ==>
      LogLineFor(futures, cs, Settle(futures, disk, cs).deleted[m], Settle(futures, disk, cs).log[m])
    decreases |cs|
  {
    if cs != [] {
      var init := cs[..|cs| - 1];
      var c := cs[|cs| - 1];
      var s0 := Settle(futures, disk, init);
      SettleLogMatches(futures, disk, init);
      var s := Settle(futures, disk, cs);
      assert s == Step(futures, s0, c);
      forall m | 0 <= m < |s.log| ensures LogLineFor(futures, cs, s.deleted[m], s.log[m]) {
        if m < |s0.log| {
          assert s.log[m] == s0.log[m] && s.deleted[m] == s0.deleted[m];
          assert LogLineFor(futures, init, s0.deleted[m], s0.log[m]);
          var k :| 0 <= k < |init| && init[k].task == s0.deleted[m] && init[k].task in futures
            && init[k].error.Some? && s0.log[m] == FailureMessage(futures[init[k].task].url, init[k].error.value);
          assert cs[k] == init[k];
        } else {
          var last := |cs| - 1;
          assert cs[last] == c && c.error.Some?;
          assert s.deleted[m] == c.task && s.log[m] == FailureMessage(futures[c.task].url, c.error.value);
        }
      }
    }
  }

  /** A task is deleted exactly when its result raised, and no task is deleted twice. */
  lemma {:induction false} SettleDeletedIffFailed(futures: map<nat, FileDownloader>, disk: Disk, cs: seq<Completion>)
    requires Submitted(futures, cs)
    requires forall j, k :: 0 <= j < k < |cs| ==> cs[j].task != cs[k].task
    ensures forall i: nat :: i in Settle(futures, disk, cs).deleted <==> Failed(cs, i)
    ensures forall j, k :: 0 <= j < k < |Settle(futures, disk, cs).deleted| ==>
      Settle(futures, disk, cs).deleted[j] != Settle(futures, disk, cs).deleted[k]
    decreases |cs|
  {
    if cs != [] {
      var init := cs[..|cs| - 1];
      var c := cs[|cs| - 1];
      var s0 := Settle(futures, disk, init);
      SettleDeletedIffFailed(futures, disk, init);
      var s := Settle(futures, disk, cs);
      assert s == Step(futures, s0, c);
      forall i: nat ensures i in s.deleted <==> Failed(cs, i) {
        if Failed(init, i) {
          var k :| 0 <= k < |init| && init[k].task == i && init[k].error.Some?;
          assert cs[k] == init[k];
        }
        if Failed(cs, i) {
          var k :| 0 <= k < |cs| && cs[k].task == i && cs[k].error.Some?;
          if k < |init| { assert init[k] == cs[k]; }
        }
        if i in s.deleted && i !in s0.deleted {
          assert i == c.task && c.error.Some?;
          assert cs[|cs| - 1] == c;
        }
      }
      if c.error.Some? && c.task in s0.deleted {
        assert false;
      }
    }
  }

  /** The failure log and the deletions together, combining `SettleLogMatches` and
      `SettleDeletedIffFailed`: one error line and one `delete()` per failed task, both for the
      downloader of that task, in the order of completion; no task that succeeded is deleted,
      and no task is deleted twice. */
  lemma SettleDeletesFailed(futures: map<nat, FileDownloader>, disk: Disk, cs: seq<Completion>)
    requires Submitted(futures, cs)
    requires forall j, k :: 0 <= j < k < |cs| ==> cs[j].task != cs[k].task
    ensures |Settle(futures, disk, cs).log| == |Settle(futures, disk, cs).deleted|
    ensures forall i: nat :: i in Settle(futures, disk, cs).deleted <==> Failed(cs, i)
    ensures forall j, k :: 0 <= j < k < |Settle(futures, disk, cs).deleted| ==>
      Settle(futures, disk, cs).deleted[j] != Settle(futures, disk, cs).deleted[k]
    ensures forall m :: 0 <= m < |Settle(futures, disk, cs).log| ==>
      LogLineFor(futures, cs, Settle(futures, disk, cs).deleted[m], Settle(futures, disk, cs).log[m])
  {
    SettleLogMatches(futures, disk, cs);
    SettleDeletedIffFailed(futures, disk, cs);
  }

  /** What the submitted tasks leave on disk when `main` examines none of their results: each
      task's file, in completion order, and nothing deleted. */
  function LeaveAll(futures: map<nat, FileDownloader>, disk: Disk, cs: seq<Completion>): Disk
    requires Submitted(futures, cs)
    decreases |cs|
  {
    if cs == [] then disk
    else
      var c := cs[|cs| - 1];
      Leave(LeaveAll(futures, disk, cs[..|cs| - 1]), futures[c.task].OutputPath(), c.left)
  }

  /** With no two tasks writing the same path, when no result is examined every task's output
      holds what its download left, a failed task's partial file included; every other path
      and every directory is as it was. */
  lemma {:induction false} LeaveAllKeepsFiles(futures: map<nat, FileDownloader>, disk: Disk, cs: seq<Completion>)
    requires Submitted(futures, cs) && DistinctOutputs(futures, cs)
    ensures LeaveAll(futures, disk, cs).dirs == disk.dirs
    ensures forall k :: 0 <= k < |cs| ==>
      FileAt(LeaveAll(futures, disk, cs), futures[cs[k].task].OutputPath())
        == if cs[k].left.Some? then cs[k].left else FileAt(disk, futures[cs[k].task].OutputPath())
    ensures forall p :: (forall k :: 0 <= k < |cs| ==> futures[cs[k].task].OutputPath() != p) ==>
      FileAt(LeaveAll(futures, disk, cs), p) == FileAt(disk, p)
    decreases |cs|
  {
    if cs != [] {
      var init := cs[..|cs| - 1];
      var c := cs[|cs| - 1];
      var pc := futures[c.task].OutputPath();
      assert DistinctOutputs(futures, init) by {
        forall j, k | 0 <= j < |init| && 0 <= k < |init| && j != k
          ensures futures[init[j].task].OutputPath() != futures[init[k].task].OutputPath()
        {
          assert init[j] == cs[j] && init[k] == cs[k];
        }
      }
      LeaveAllKeepsFiles(futures, disk, init);
      forall k | 0 <= k < |cs|
        ensures FileAt(LeaveAll(futures, disk, cs), futures[cs[k].task].OutputPath())
          == if cs[k].left.Some? then cs[k].left else FileAt(disk, futures[cs[k].task].OutputPath())
      {
        if k < |init| {
          assert init[k] == cs[k];
        } else {
          forall j | 0 <= j < |init| ensures futures[init[j].task].OutputPath() != pc {
            assert init[j] == cs[j];
          }
        }
      }
      forall p | forall k :: 0 <= k < |cs| ==> futures[cs[k].task].OutputPath() != p
        ensures FileAt(LeaveAll(futures, disk, cs), p) == FileAt(disk, p)
      {
        assert futures[cs[|cs| - 1].task].OutputPath() != p;
        forall j | 0 <= j < |init| ensures futures[init[j].task].OutputPath() != p {
          assert init[j] == cs[j];
        }
      }
    }
  }

  /** The file at a path, if there is one. */
  function FileAt(disk: Disk, p: string): Option<seq<byte>>
  {
    if p in disk.files then Some(disk.files[p]) else None
  }

  /** What a completion's output path holds once the completion is reconciled, given what it
      held before: nothing after a failure; otherwise what the download left, if it left
      anything. */
  function Expected(before: Option<seq<byte>>, c: Completion): Option<seq<byte>>
  {
    if c.error.Some? then None else if c.left.Some? then c.left else before
  }

  /** One reconciliation step changes only the completed task's output path, as `Expected` says. */
  lemma StepEffect(futures: map<nat, FileDownloader>, s: Settled, c: Completion, p: string)
    requires c.task in futures
    ensures Step(futures, s, c).disk.dirs == s.disk.dirs
    ensures FileAt(Step(futures, s, c).disk, p) ==
      if p == futures[c.task].OutputPath() then Expected(FileAt(s.disk, p), c) else FileAt(s.disk, p)
  {
  }

  /** With no two tasks writing the same path, the disk after reconciliation is determined
      task by task: a failed task's output is gone (even if it was never written), a
      successful task's output holds what its download wrote, and every other path is as it
      was. */
  lemma {:induction false} SettleFiles(futures: map<nat, FileDownloader>, disk: Disk, cs: seq<Completion>)
    requires Submitted(futures, cs) && DistinctOutputs(futures, cs)
    ensures forall k :: 0 <= k < |cs| ==>
      FileAt(Settle(futures, disk, cs).disk, futures[cs[k].task].OutputPath())
        == Expected(FileAt(disk, futures[cs[k].task].OutputPath()), cs[k])
    ensures forall p :: (forall k :: 0 <= k < |cs| ==> futures[cs[k].task].OutputPath() != p) ==>
      FileAt(Settle(futures, disk, cs).disk, p) == FileAt(disk, p)
    decreases |cs|
  {
    if cs != [] {
      var init := cs[..|cs| - 1];
      var c := cs[|cs| - 1];
      var pc := futures[c.task].OutputPath();
      var s0 := Settle(futures, disk, init);
      assert DistinctOutputs(futures, init) by {
        forall j, k | 0 <= j < |init| && 0 <= k < |init| && j != k
          ensures futures[init[j].task].OutputPath() != futures[init[k].task].OutputPath()
        {
          assert init[j] == cs[j] && init[k] == cs[k];
        }
      }
      SettleFiles(futures, disk, init);
      var s := Settle(futures, disk, cs);
      forall k | 0 <= k < |cs|
        ensures FileAt(s.disk, futures[cs[k].task].OutputPath())
          == Expected(FileAt(disk, futures[cs[k].task].OutputPath()), cs[k])
      {
        var pk := futures[cs[k].task].OutputPath();
        StepEffect(futures, s0, c, pk);
        if k < |init| {
          assert init[k] == cs[k];
        } else {
          forall j | 0 <= j < |init| ensures futures[init[j].task].OutputPath() != pc {
            assert init[j] == cs[j];
          }
        }
      }
      forall p | forall k :: 0 <= k < |cs| ==> futures[cs[k].task].OutputPath() != p
        ensures FileAt(s.disk, p) == FileAt(disk, p)
      {
        StepEffect(futures, s0, c, p);
        assert futures[cs[|cs| - 1].task].OutputPath() != p;
        forall j | 0 <= j < |init| ensures futures[init[j].task].OutputPath() != p {
          assert init[j] == cs[j];
        }
      }
    }
  }

  /** With no two tasks writing the same path, the completion order does not matter: any two
      orders of the same completions leave the same disk and delete the same tasks. */
  lemma SettleOrderIrrelevant(futures: map<nat, FileDownloader>, disk: Disk, cs1: seq<Completion>, cs2: seq<Completion>)
    requires Submitted(futures, cs1) && DistinctOutputs(futures, cs1)
    requires Submitted(futures, cs2) && DistinctOutputs(futures, cs2)
    requires multiset(cs1) == multiset(cs2)
    ensures Settle(futures, disk, cs1).disk == Settle(futures, disk, cs2).disk
    ensures forall i: nat :: i in Settle(futures, disk, cs1).deleted <==> i in Settle(futures, disk, cs2).deleted
  {
    var s1 := Settle(futures, disk, cs1);
    var s2 := Settle(futures, disk, cs2);
    SettleFiles(futures, disk, cs1);
    SettleFiles(futures, disk, cs2);
    SettleKeepsDirs(futures, disk, cs1);
    SettleKeepsDirs(futures, disk, cs2);
    forall p ensures FileAt(s1.disk, p) == FileAt(s2.disk, p) {
      if k1 :| 0 <= k1 < |cs1| && futures[cs1[k1].task].OutputPath() == p {
        assert cs1[k1] in multiset(cs2);
        var k2 :| 0 <= k2 < |cs2| && cs2[k2] == cs1[k1];
      } else {
        forall k2 | 0 <= k2 < |cs2| ensures futures[cs2[k2].task].OutputPath() != p {
          assert cs2[k2] in multiset(cs1);
          var k1 :| 0 <= k1 < |cs1| && cs1[k1] == cs2[k2];
        }
      }
    }
    assert forall p :: p in s1.disk.files <==> p in s2.disk.files by {
      forall p ensures p in s1.disk.files <==> p in s2.disk.files {
        assert FileAt(s1.disk, p) == FileAt(s2.disk, p);
      }
    }
    assert forall p :: p in s1.disk.files ==> s1.disk.files[p] == s2.disk.files[p] by {
      forall p | p in s1.disk.files ensures s1.disk.files[p] == s2.disk.files[p] {
        assert FileAt(s1.disk, p) == FileAt(s2.disk, p);
      }
    }
    assert s1.disk.files == s2.disk.files;
    DistinctOutputsDistinctTasks(futures, cs1);
    DistinctOutputsDistinctTasks(futures, cs2);
    SettleDeletesFailed(futures, disk, cs1);
    SettleDeletesFailed(futures, disk, cs2);
    forall i: nat ensures Failed(cs1, i) <==> Failed(cs2, i) {
      if Failed(cs1, i) {
        var k1 :| 0 <= k1 < |cs1| && cs1[k1].task == i && cs1[k1].error.Some?;
        assert cs1[k1] in multiset(cs2);
        var k2 :| 0 <= k2 < |cs2| && cs2[k2] == cs1[k1];
      }
      if Failed(cs2, i) {
        var k2 :| 0 <= k2 < |cs2| && cs2[k2].task == i && cs2[k2].error.Some?;
        assert cs2[k2] in multiset(cs1);
        var k1 :| 0 <= k1 < |cs1| && cs1[k1] == cs2[k2];
      }
    }
  }

  /** Completions with distinct output paths belong to distinct tasks. */
  lemma DistinctOutputsDistinctTasks(futures: map<nat, FileDownloader>, cs: seq<Completion>)
    requires Submitted(futures, cs) && DistinctOutputs(futures, cs)
    ensures forall j, k :: 0 <= j < k < |cs| ==> cs[j].task != cs[k].task
  {
  }

  /** URL groups whose first URLs end in pairwise different proper file names give tasks that
      write pairwise different output paths, whatever order they complete in. */
  lemma DistinctNamesDistinctOutputs(args: Args, futures: map<nat, FileDownloader>, cs: seq<Completion>)
    requires forall i :: 0 <= i < |args.url| ==> |args.url[i]| > 0
    requires forall i :: 0 <= i < |args.url| ==>
      i in futures && futures[i].url == args.url[i][0] && futures[i].path == args.output
    requires forall i :: 0 <= i < |args.url| ==>
      FileName(args.url[i][0]) != "" && FileName(args.url[i][0]) != "."
    requires forall i, j :: 0 <= i < j < |args.url| ==> FileName(args.url[i][0]) != FileName(args.url[j][0])
    requires IsCompletionOrder(cs, |args.url|)
    ensures Submitted(futures, cs) && DistinctOutputs(futures, cs)
  {
    forall j, k | 0 <= j < |cs| && 0 <= k < |cs| && j != k
      ensures futures[cs[j].task].OutputPath() != futures[cs[k].task].OutputPath()
    {
      var a, b := cs[j].task, cs[k].task;
      assert a != b by {
        if j < k { assert cs[j].task != cs[k].task; } else { assert cs[k].task != cs[j].task; }
      }
      OutputPathNamesUrlFile(futures[a]);
      OutputPathNamesUrlFile(futures[b]);
      if a < b {
        assert FileName(args.url[a][0]) != FileName(args.url[b][0]);
      } else {
        assert FileName(args.url[b][0]) != FileName(args.url[a][0]);
      }
    }
  }

  /** Two groups naming the same file: when the one that succeeded completes before the one
      that failed, the failed task's `delete()` removes the file the successful one wrote. */
  lemma SharedNameLosesSuccess(futures: map<nat, FileDownloader>, disk: Disk, cs: seq<Completion>)
    requires Submitted(futures, cs) && |cs| == 2
    requires futures[cs[0].task].OutputPath() == futures[cs[1].task].OutputPath()
    requires cs[0].error.None? && cs[0].left.Some? && cs[1].error.Some?
    ensures futures[cs[0].task].OutputPath() !in Settle(futures, disk, cs).disk.files
  {
    assert cs[..1][..0] == [];
    assert cs[..|cs| - 1] == cs[..1];
  }

  /** The scenario of the unit test of `main`'s failure path: one group whose download raises
      "Network error!" produces exactly one error line, for that URL, and one deletion. */
  lemma NetworkErrorScenario(futures: map<nat, FileDownloader>, disk: Disk, url: string)
    requires 0 in futures && futures[0].url == url
    ensures var s := Settle(futures, disk, [Completion(0, None, Some("Network error!"))]);
      && s.log == ["failed to download file from " + url + ", Network error!."]
      && s.deleted == [0]
      && futures[0].OutputPath() !in s.disk.files
  {
    var cs := [Completion(0, None, Some("Network error!"))];
    assert cs[..0] == [];
    assert ", " + "Network error!" + "." == ", Network error!.";
    assert FailureMessage(url, "Network error!") == "failed to download file from " + url + ", Network error!.";
  }

  // ---------------------------------------------------------------------------------
  // get_log_level

  /** The `logging` module's numeric levels. */
  const DEBUG: int := 10
  const INFO: int := 20
  const WARNING: int := 30
  const ERROR: int := 40

  /** Python's `str.upper` on one character, for the characters whose upper case is an ASCII
      letter: a-z, the dotless i (U+0131) and the long s (U+017F). */
  function UpperChar(c: char): char
  {
    if 'a' <= c <= 'z' then (c as int - 32) as char
    else if c == '\U{0131}' then 'I'
    else if c == '\U{017F}' then 'S'
    else c
  }

  function Upper(s: string): (u: string)
    ensures |u| == |s|
    ensures forall k :: 0 <= k < |s| ==> u[k] == UpperChar(s[k])
    decreases |s|
  {
    if s == [] then [] else [UpperChar(s[0])] + Upper(s[1..])
  }

  /** Upper-casing twice changes nothing more. */
  lemma UpperIdempotent(s: string)
    ensures Upper(Upper(s)) == Upper(s)
  {
    var u := Upper(s);
    forall k | 0 <= k < |s| ensures Upper(u)[k] == u[k] {
      var c := s[k];
      assert u[k] == UpperChar(c);
    }
  }

  /** `get_log_level(log_level)`: the name, upper-cased, selects INFO, WARNING, DEBUG or
      ERROR; any other name gives INFO. */
  function GetLogLevel(name: string): (level: int)
    ensures level == WARNING <==> Upper(name) == "WARNING"
    ensures level == DEBUG <==> Upper(name) == "DEBUG"
    ensures level == ERROR <==> Upper(name) == "ERROR"
    ensures level == INFO <==> Upper(name) != "WARNING" && Upper(name) != "DEBUG" && Upper(name) != "ERROR"
  {
    if Upper(name) == "INFO" then INFO
    else if Upper(name) == "WARNING" then WARNING
    else if Upper(name) == "DEBUG" then DEBUG
    else if Upper(name) == "ERROR" then ERROR
    else INFO
  }

  /** The level depends on the name only up to case: a name and its upper-cased form give the
      same level, and so do any two names that agree when upper-cased. */
  lemma LogLevelIgnoresCase(a: string, b: string)
    requires Upper(a) == Upper(b)
    ensures GetLogLevel(a) == GetLogLevel(b)
    ensures GetLogLevel(Upper(a)) == GetLogLevel(a)
  {
    UpperIdempotent(a);
  }

  /** A string whose characters upper-case one by one to those of `u` upper-cases to `u`. */
  lemma UpperOf(s: string, u: string)
    requires |s| == |u| && forall k :: 0 <= k < |s| ==> UpperChar(s[k]) == u[k]
    ensures Upper(s) == u
  {
  }

  /** The cases of the unit test of `get_log_level`. */
  lemma LogLevelExamples()
    ensures GetLogLevel("info") == INFO && GetLogLevel("WarNing") == WARNING
    ensures GetLogLevel("DEBUG") == DEBUG && GetLogLevel("error") == ERROR
    ensures GetLogLevel("xxx") == INFO
  {
    UpperOf("info", "INFO");
    UpperOf("WarNing", "WARNING");
    UpperOf("DEBUG", "DEBUG");
    UpperOf("error", "ERROR");
    UpperOf("xxx", "XXX");
  }
}

=== FILE: downloader.dfy ===
/** The downloaders of data_downloader/downloader.py: a base class whose `download` is not
    implemented, an HTTP variant that streams the response body into a local file chunk by
    chunk, and an FTP variant that inherits the base `download` unchanged. */
module Downloader {
  import opened Paths

  type byte = bv8

  /** The part of the local filesystem the downloaders and `main` touch: the directories that
      exist and the regular files with their contents. The empty path "" stands for the
      current directory. */
  datatype Disk = Disk(dirs: set<string>, files: map<string, seq<byte>>)

  /** What the server does when `requests.get(url, stream=True)` is called: either the request
      raises before any response arrives, or a response arrives with a status code and its
      body, which `iter_content` delivers as a sequence of chunks and which may break off with a
      transport error after the chunks listed. */
  datatype Fetch =
    | Unreachable(reason: string)
    | Response(status: int, chunks: seq<seq<byte>>, interrupted: Option<string>)

  datatype Option<T> = None | Some(value: T)

  /** The exceptions `download` can raise. */
  datatype DownloadError =
    | NotImplemented            // the base class' NotImplementedError
    | Transport(reason: string) // requests' connection or streaming errors
    | HttpStatus(code: int)     // raise_for_status' HTTPError
    | CannotOpen(path: string)  // open(..., 'wb') fails

  datatype Outcome = Done | Raised(error: DownloadError)

  /** One call on the open output file handle. */
  datatype IoEvent = Opened(path: string) | Wrote(data: seq<byte>) | Flushed | Closed

  /** `raise_for_status` raises for client errors (4xx) and server errors (5xx). */
  predicate BadStatus(status: int)
  {
    400 <= status < 600
  }

  /** A path names a directory: the current one ("") or one of the disk's directories. */
  predicate IsDirectory(disk: Disk, p: string)
  {
    p == "" || p in disk.dirs
  }

  /** `open(target, 'wb')`, with `dir` the directory `target` lies in, succeeds when that
      directory exists and the target is not itself a directory; an existing regular file is
      truncated. */
  predicate CanOpen(disk: Disk, dir: string, target: string)
  {
    IsDirectory(disk, dir) && !IsDirectory(disk, target)
  }

  /** The chunks of a body without the zero-length keep-alive chunks, in their order. */
  function NonEmpty(chunks: seq<seq<byte>>): (r: seq<seq<byte>>)
    ensures |r| <= |chunks|
    ensures forall k :: 0 <= k < |r| ==> |r[k]| > 0
    ensures multiset(r) == multiset(chunks)[[] := 0]
    decreases |chunks|
  {
    if chunks == [] then []
    else
      var init := NonEmpty(chunks[..|chunks| - 1]);
      var last := chunks[|chunks| - 1];
      assert chunks == chunks[..|chunks| - 1] + [last];
      if |last| > 0 then init + [last] else init
  }

  /** The bytes of a body: its chunks concatenated in order. */
  function Concat(chunks: seq<seq<byte>>): seq<byte>
    decreases |chunks|
  {
    if chunks == [] then [] else Concat(chunks[..|chunks| - 1]) + chunks[|chunks| - 1]
  }

  /** The calls the chunk loop makes on the file for a body: for every non-empty chunk, a
      write of that chunk immediately followed by a flush. */
  function WriteTrace(chunks: seq<seq<byte>>): seq<IoEvent>
    decreases |chunks|
  {
    if chunks == [] then []
    else
      var init := WriteTrace(chunks[..|chunks| - 1]);
      var last := chunks[|chunks| - 1];
      if |last| > 0 then init + [Wrote(last), Flushed] else init
  }

  /** Skipping the empty chunks loses no byte: the non-empty chunks concatenate to the body. */
  lemma {:induction false} ConcatNonEmpty(chunks: seq<seq<byte>>)
    ensures Concat(NonEmpty(chunks)) == Concat(chunks)
    decreases |chunks|
  {
    if chunks != [] {
      var init := chunks[..|chunks| - 1];
      var last := chunks[|chunks| - 1];
      ConcatNonEmpty(init);
      if |last| > 0 {
        var n := NonEmpty(init) + [last];
        assert n[..|n| - 1] == NonEmpty(init);
      } else {
        assert last == [];
      }
    }
  }

  /** The shape of the write trace: it has two events per non-empty chunk, the k-th write
      carries the k-th non-empty chunk, and every write is immediately followed by a flush.
      In particular the number of writes is the number of non-empty chunks, and the loop
      never opens or closes the file, so the file stays open across all the chunks. */
  lemma {:induction false} WriteTraceShape(chunks: seq<seq<byte>>)
    ensures |WriteTrace(chunks)| == 2 * |NonEmpty(chunks)|
    ensures forall k :: 0 <= k < |NonEmpty(chunks)| ==>
      WriteTrace(chunks)[2 * k] == Wrote(NonEmpty(chunks)[k]) && WriteTrace(chunks)[2 * k + 1] == Flushed
    ensures forall e :: e in WriteTrace(chunks) ==> e.Wrote? || e.Flushed?
    decreases |chunks|
  {
    if chunks != [] {
      var init := chunks[..|chunks| - 1];
      WriteTraceShape(init);
    }
  }

  /** The file object returned by `open(path, 'wb')`. `write` hands the data to the file
      object; the model holds it in the buffer until `flush` (or `close`) puts it into the
      file on disk. */
  class OutputFile {
    const path: string
    var content: seq<byte>   // the bytes in the file on disk
    var pending: seq<byte>   // written but not yet flushed
    var events: seq<IoEvent> // every call made on the handle, in order

    constructor Open(path: string)
      ensures this.path == path && content == [] && pending == [] && events == [Opened(path)]
    {
      this.path := path;
      content, pending, events := [], [], [Opened(path)];
    }

    /** `write(data)`: the data joins the buffer. */
    method Write(data: seq<byte>)
      modifies this
      ensures content == old(content) && pending == old(pending) + data
      ensures events == old(events) + [Wrote(data)]
    {
      pending := pending + data;
      events := events + [Wrote(data)];
    }

    method Flush()
      modifies this
      ensures content == old(content) + old(pending) && pending == []
      ensures events == old(events) + [Flushed]
    {
      content, pending := content + pending, [];
      events := events + [Flushed];
    }

    /** Leaving the `with open(...)` block closes the file, which flushes what is left. */
    method Close()
      modifies this
      ensures content == old(content) + old(pending) && pending == []
      ensures events == old(events) + [Closed]
    {
      content, pending := content + pending, [];
      events := events + [Closed];
    }
  }

  /** The three downloader classes of the source. */
  datatype Kind = Base | Http | Ftp

  /** A downloader: the URL to fetch and the directory to store the file in, as given to the
      constructor, and the class it was built as. */
  class FileDownloader {
    const kind: Kind
    const url: string
    const path: string

    /** `FileDownloader(url, path)`. */
    constructor Base(url: string, path: string)
      ensures kind == Kind.Base && this.url == url && this.path == path
    {
      kind, this.url, this.path := Kind.Base, url, path;
    }

    /** `HttpFileDownloader(url, path)`. */
    constructor Http(url: string, path: string)
      ensures kind == Kind.Http && this.url == url && this.path == path
    {
      kind, this.url, this.path := Kind.Http, url, path;
    }

    /** `FtpFileDownloader(url, path)`. */
    constructor Ftp(url: string, path: string)
      ensures kind == Kind.Ftp && this.url == url && this.path == path
    {
      kind, this.url, this.path := Kind.Ftp, url, path;
    }

    /** The local file: `Path(self.path) / self.url.split('/')[-1]`. It lies under the
        downloader's directory, and it is that directory itself when the URL's last segment
        is empty or ".". */
    function OutputPath(): (p: string)
      ensures |path| <= |p| && p[..|path|] == path
      ensures FileName(url) == "" || FileName(url) == "." ==> p == path
    {
      JoinPath(path, FileName(url))
    }

    /** The directory `open` creates the output file in: the downloader's directory when the
        URL names a file, and otherwise the parent of that directory, since the output path is
        then the directory path itself. */
    function OutputDir(): string
    {
      if FileName(url) == "" || FileName(url) == "." then Parent(path) else path
    }

    /** `save` does nothing. */
    method Save(filename: string)
    {
    }

    /** `download()`. The base class raises NotImplementedError, and so does the FTP class,
        which does not override it. The HTTP class requests the URL, checks the status before
        opening the output file, and then writes and flushes every non-empty chunk of the body
        in order; the file is closed when the body ends or breaks off. The server's behaviour
        is the parameter `fetch`; `disk` is the filesystem before the call and `after` the
        filesystem afterwards; `events` lists the calls made on the output file. */
    method Download(fetch: Fetch, disk: Disk) returns (r: Outcome, after: Disk, events: seq<IoEvent>)
      ensures kind != Kind.Http ==> r == Raised(NotImplemented) && after == disk && events == []
      ensures kind == Kind.Http && fetch.Unreachable? ==>
        r == Raised(Transport(fetch.reason)) && after == disk && events == []
      // the status is checked before the file is opened: a bad status leaves the disk alone
      ensures kind == Kind.Http && fetch.Response? && BadStatus(fetch.status) ==>
        r == Raised(HttpStatus(fetch.status)) && after == disk && events == []
      ensures kind == Kind.Http && fetch.Response? && !BadStatus(fetch.status)
              && !CanOpen(disk, OutputDir(), OutputPath()) ==>
        r == Raised(CannotOpen(OutputPath())) && after == disk && events == []
      // otherwise the file holds the whole body received, written chunk by chunk
      ensures kind == Kind.Http && fetch.Response? && !BadStatus(fetch.status)
              && CanOpen(disk, OutputDir(), OutputPath()) ==>
        && after == disk.(files := disk.files[OutputPath() := Concat(fetch.chunks)])
        && events == [Opened(OutputPath())] + WriteTrace(fetch.chunks) + [Closed]
        && r == (if fetch.interrupted.Some? then Raised(Transport(fetch.interrupted.value)) else Done)
    {
      if kind != Kind.Http {
        return Raised(NotImplemented), disk, [];
      }
      var target := OutputPath();
      if fetch.Unreachable? {
        return Raised(Transport(fetch.reason)), disk, [];
      }
      var chunks := fetch.chunks;
      if BadStatus(fetch.status) {
        return Raised(HttpStatus(fetch.status)), disk, [];
      }
      if !CanOpen(disk, OutputDir(), target) {
        return Raised(CannotOpen(target)), disk, [];
      }
      var f := new OutputFile.Open(target);
      var i := 0;
      while i < |chunks|
        invariant 0 <= i <= |chunks|
        invariant f.pending == []
        invariant f.content == Concat(chunks[..i])
        invariant f.events == [Opened(target)] + WriteTrace(chunks[..i])
      {
        var chunk := chunks[i];
        assert chunks[..i + 1][..i] == chunks[..i];
        if |chunk| > 0 {
          f.Write(chunk);
          f.Flush();
        } else {
          assert chunk == [];
        }
        i := i + 1;
      }
      assert chunks[..i] == chunks;
      f.Close();
      assert f.content == Concat(chunks);
      after := disk.(files := disk.files[target := f.content]);
      events := f.events;
      r := if fetch.interrupted.Some? then Raised(Transport(fetch.interrupted.value)) else Done;
    }

    /** `delete()`: the output file is removed if it exists, and nothing else changes. */
    function Delete(disk: Disk): (d: Disk)
      ensures OutputPath() !in d.files && d.dirs == disk.dirs
      ensures forall p :: p != OutputPath() ==> (p in d.files <==> p in disk.files)
      ensures forall p :: p in d.files ==> d.files[p] == disk.files[p]
    {
      disk.(files := disk.files - {OutputPath()})
    }
  }

  /** `delete()` is idempotent, and a no-op when the file is absent. */
  lemma DeleteIdempotent(d: FileDownloader, disk: Disk)
    ensures d.Delete(d.Delete(disk)) == d.Delete(disk)
    ensures d.OutputPath() !in disk.files ==> d.Delete(disk) == disk
  {
    if d.OutputPath() !in disk.files {
      assert d.Delete(disk).files == disk.files;
    }
  }

  /** The file an HTTP download writes is the URL's last '/'-separated segment inside the
      downloader's directory, whenever that segment is a proper file name. */
  lemma OutputPathNamesUrlFile(d: FileDownloader)
    requires FileName(d.url) != "" && FileName(d.url) != "."
    ensures d.OutputPath()[..|d.path|] == d.path
    ensures FileName(d.OutputPath()) == FileName(d.url)
  {
    FileNameIsLastSegment(d.url);
    JoinPathKeepsName(d.path, FileName(d.url));
  }

  /** A URL ending in '/' names no file: the output path is the downloader's directory path
      itself. When that path is an existing directory, the download fails at `open` once the
      status is fine, without touching the disk. */
  lemma TrailingSlashCannotOpen(d: FileDownloader, disk: Disk)
    requires |d.url| > 0 && d.url[|d.url| - 1] == '/'
    requires IsDirectory(disk, d.path)
    ensures d.OutputPath() == d.path && !CanOpen(disk, d.OutputDir(), d.OutputPath())
  {
    assert FileName(d.url) == [];
  }

  /** When the URL's last segment is empty or ".", `open` acts on the downloader's directory
      path as a file: it succeeds exactly when that path is not a directory and its parent
      is, creating the file there or truncating an existing one. */
  lemma NamelessUrlOpensPath(d: FileDownloader, disk: Disk)
    requires FileName(d.url) == "" || FileName(d.url) == "."
    ensures d.OutputPath() == d.path
    ensures CanOpen(disk, d.OutputDir(), d.OutputPath()) <==>
      IsDirectory(disk, Parent(d.path)) && !IsDirectory(disk, d.path)
  {
  }

  /** A URL ending in '/' with a plain file name as directory, which does not exist as a
      directory: the download opens that name in the current directory. */
  lemma TrailingSlashOpensPlainName(d: FileDownloader, disk: Disk)
    requires |d.url| > 0 && d.url[|d.url| - 1] == '/'
    requires '/' !in d.path && !IsDirectory(disk, d.path)
    ensures d.OutputPath() == d.path && d.OutputDir() == ""
    ensures CanOpen(disk, d.OutputDir(), d.OutputPath())
  {
    assert FileName(d.url) == [];
    ParentThenName(d.path);
  }
}

=== FILE: paths.dfy ===
/** The string and path operations the downloader relies on to name its local file:
    Python's `str.split`, the last element of the result, and pathlib's `/` join. */
module Paths {

  /** Python's `s.split(sep)` for a one-character separator: the pieces between the
      occurrences of `sep`, from left to right; there is always at least one piece. */
  function Split(s: string, sep: char): (parts: seq<string>)
    ensures |parts| >= 1
    ensures forall k :: 0 <= k < |parts| ==> sep !in parts[k]
    decreases |s|
  {
    if s == [] then [[]]
    else
      var init := Split(s[..|s| - 1], sep);
      var c := s[|s| - 1];
      if c == sep then init + [[]]
      else init[..|init| - 1] + [init[|init| - 1] + [c]]
  }

  /** Python's `sep.join(parts)`. */
  function JoinWith(parts: seq<string>, sep: char): string
    requires |parts| >= 1
    decreases |parts|
  {
    if |parts| == 1 then parts[0]
    else JoinWith(parts[..|parts| - 1], sep) + [sep] + parts[|parts| - 1]
  }

  lemma {:induction false} JoinWithLastExtended(parts: seq<string>, sep: char, c: char)
    requires |parts| >= 1
    ensures JoinWith(parts[..|parts| - 1] + [parts[|parts| - 1] + [c]], sep) == JoinWith(parts, sep) + [c]
  {
    var q := parts[..|parts| - 1] + [parts[|parts| - 1] + [c]];
    if |parts| > 1 {
      assert q[..|q| - 1] == parts[..|parts| - 1];
    }
  }

  /** Splitting and joining back with the same separator gives the original string. */
  lemma {:induction false} SplitJoin(s: string, sep: char)
    ensures JoinWith(Split(s, sep), sep) == s
    decreases |s|
  {
    if s != [] {
      var t := s[..|s| - 1];
      var c := s[|s| - 1];
      var init := Split(t, sep);
      SplitJoin(t, sep);
      assert s == t + [c];
      if c == sep {
        assert (init + [[]])[..|init|] == init;
      } else {
        JoinWithLastExtended(init, sep, c);
      }
    }
  }

  /** The local file name of a URL: `url.split('/')[-1]`. */
  function FileName(url: string): string
  {
    var parts := Split(url, '/');
    parts[|parts| - 1]
  }

  /** The file name is exactly the text after the last '/' of the URL (the whole URL when it
      has no '/'): it is a suffix of the URL, holds no '/', and is preceded by a '/' unless it
      is the whole URL. */
  lemma {:induction false} FileNameIsLastSegment(url: string)
    ensures |FileName(url)| <= |url|
    ensures url[|url| - |FileName(url)|..] == FileName(url)
    ensures '/' !in FileName(url)
    ensures |FileName(url)| < |url| ==> url[|url| - |FileName(url)| - 1] == '/'
    decreases |url|
  {
    if url != [] {
      var t := url[..|url| - 1];
      var c := url[|url| - 1];
      FileNameIsLastSegment(t);
      var init := Split(t, '/');
      if c != '/' {
        assert FileName(url) == FileName(t) + [c];
        assert url == t + [c];
        assert url[|url| - |FileName(url)|..] == t[|t| - |FileName(t)|..] + [c];
      } else {
        assert FileName(url) == [];
      }
    }
  }

  /** The directory part of a path: the text before its last '/', or "" (the current
      directory) when it has none. */
  function Parent(p: string): string
  {
    var n := |p| - |FileName(p)|;
    if n <= 0 then "" else p[..n - 1]
  }

  /** A path is its parent, a '/', and its last segment; a path without '/' lies in the
      current directory and is its own last segment. */
  lemma ParentThenName(p: string)
    ensures '/' in p ==> p == Parent(p) + "/" + FileName(p)
    ensures '/' !in p ==> Parent(p) == "" && FileName(p) == p
  {
    FileNameIsLastSegment(p);
    var n := |p| - |FileName(p)|;
    if n > 0 {
      assert p[n - 1] == '/';
      assert p == p[..n - 1] + [p[n - 1]] + p[n..];
    } else {
      assert p == FileName(p);
    }
  }

  /** A URL without any '/' is its own file name. */
  lemma NoSlashIsOwnName(url: string)
    requires '/' !in url
    ensures FileName(url) == url
  {
    FileNameIsLastSegment(url);
  }

  /** Appending a segment without '/' after a '/' makes that segment the file name. */
  lemma {:induction false} FileNameAfterSlash(prefix: string, name: string)
    requires '/' !in name
    ensures FileName(prefix + "/" + name) == name
    decreases |name|
  {
    if name == [] {
      assert prefix + "/" + name == (prefix + "/")[..|prefix|] + ['/'];
    } else {
      var m := name[..|name| - 1];
      var s := prefix + "/" + name;
      assert '/' !in m by {
        forall k | 0 <= k < |m| ensures m[k] != '/' { assert m[k] == name[k]; }
      }
      FileNameAfterSlash(prefix, m);
      assert s[..|s| - 1] == prefix + "/" + m;
      assert s[|s| - 1] == name[|name| - 1];
      assert name == m + [name[|name| - 1]];
    }
  }

  /** pathlib's `Path(dir) / name` for a name holding no '/': the empty name and "." add
      nothing, the empty directory stands for the current one, and a separator is inserted
      unless the directory already ends with one. */
  function JoinPath(dir: string, name: string): string
  {
    if name == "" || name == "." then dir
    else if dir == "" then name
    else if dir[|dir| - 1] == '/' then dir + name
    else dir + "/" + name
  }

  /** The joined path begins with the directory and, for a proper name, ends with that name
      as its own last segment, so `split('/')[-1]` of the output path gives the name back. */
  lemma JoinPathKeepsName(dir: string, name: string)
    requires '/' !in name && name != "" && name != "."
    ensures |dir| <= |JoinPath(dir, name)| && JoinPath(dir, name)[..|dir|] == dir
    ensures FileName(JoinPath(dir, name)) == name
  {
    if dir == "" {
      NoSlashIsOwnName(name);
    } else if dir[|dir| - 1] == '/' {
      var p := dir[..|dir| - 1];
      assert dir + name == p + "/" + name;
      FileNameAfterSlash(p, name);
    } else {
      FileNameAfterSlash(dir, name);
    }
  }
}
